=== FILE: README.md ===
# Inventory store: a Dafny model

This project models the logic inside a small Flask/SQLAlchemy inventory application. The
application keeps a table of items. Each item has an id, a name, a quantity, a price with two
fractional digits, and an optional category. Its request handlers create, read, update, delete,
filter and search items, and produce a summary report as JSON, HTML or CSV.

The model pulls that logic out of the handlers as pure functions:

- `Options`: `Option` and `Result` values.
- `Errors`: the outcomes a handler reports instead of a stored change.
- `Seqs`: order-preserving filtering and subsequences.
- `Text`: integer text as Python's `int` reads it and `str` writes it, ASCII lower-casing, and the case-insensitive substring test.
- `Money`: prices as integer cents. Price text is read into an exact decimal, rounded to cents as the `Numeric(10, 2)` column keeps it, and written back as two-place text.
- `Items` (models.py): the `Item` record and `to_dict`.
- `Validation`: the create gate of `add_item` (JSON) and `manage_items` (form).
- `Store`: the table as a sequence in id order. It models create, lookup, update and delete, a series of requests, and the table invariant.
- `Query`: the category filter and search of `get_items`.
- `Report`: the aggregation of `get_report`. It computes the total, the per-category rollups in first-appearance order, and the out-of-stock list.
- `CsvExport`: the CSV rows and text of the report, and the `format` parameter.

A request that fails returns `Err` and leaves the table as it was. This models a transaction that
is rolled back or never committed. A new row gets the id SQLite gives an integer primary key: one
more than the largest id in use, or 1 in an empty table. So insertion order and id order agree.

The update handler does not check the name. An empty name is stored as given. An absent name
reaches the commit, which the NOT NULL constraint rejects (`StorageError`). An absent quantity or
price makes `int`/`float` raise `TypeError`, which the handler reports with its generic message
(`GenericError`). The model keeps these behaviours as written. So the table invariant `Store.Valid`
covers unique ascending ids, quantity ≥ 0 and price ≥ 1 cent, but not non-empty names.

## Model

| member | source | states |
|---|---|---|
| Text.ParseInt | app.py:55 | `int` accepts only an optional sign followed by digits. A negative result needs a leading '-'. A plain digit string reads as its value, leading zeros allowed. |
| Text.IntText | app.py:147 | The text `str` writes for an integer (the CSV count cell) reads back as the same integer. It has no '+' and no leading zero, and a '-' exactly when the integer is negative. |
| Text.ContainsCIMeansOccurs | app.py:208 | The executable search holds exactly when some position of the text holds the search string, ignoring ASCII case. |
| Money.RoundToCents | models.py:9 | The stored price is within half a cent of the exact value, is exact for at most two fractional digits, and keeps the sign. |
| Money.FormatCents | models.py:17 | The two-place price text reads back as exactly the same number of cents. It has a '-' exactly for a negative amount, whole units without leading zeros, a point, and two digits. |
| Items.ToDict | models.py:12-19 | `to_dict` copies id, name, quantity and category unchanged (category possibly null), and writes the price as text with two digits after the point. |
| Items.ToDictRoundTrip | models.py:12-19 | Reading a record's dictionary back gives the same record, price included. |
| Validation.CheckValues | app.py:54-63 | Once the fields are present, the input is accepted iff both numbers parse, quantity ≥ 0, and the gate's price test passes (at least 1 cent under `StoredCents`). Each error is characterised exactly: a parse failure first, then a negative quantity, then the price. |
| Validation.ValidateJsonUnder | app.py:43-63 | For either price check: no body or an empty body is `NoData`, missing required fields are `MissingField`, and otherwise the answer is that of the shared value checks on the body's fields. With the exact-value check this is `add_item`'s gate as written. |
| Validation.ValidateJson | app.py:43-63 | No body or an empty body is `NoData`. A falsy name or a `None` quantity or price is `MissingField`. Acceptance matches an independent condition. An accepted record has a non-empty name, quantity ≥ 0, price > 0, and fields taken from the input. |
| Validation.JsonErrorOrder | app.py:51-63 | The reported error is the first failing check, in the order required → parse → negative quantity → price. |
| Validation.ValidateFormUnder | app.py:168-185 | For either price check: a falsy name, quantity or price is `MissingField`, and otherwise the answer is that of the shared value checks on the form's fields. With the exact-value check this is the form gate as written. |
| Validation.ValidateForm | app.py:168-185 | The form gate treats empty inputs as missing. It accepts iff the fields are present and acceptable, and an accepted record satisfies the table invariant. |
| Validation.FormErrorOrder | app.py:173-185 | On the form route the reported error is also the first failing check, in the order required → parse → negative quantity → price. |
| Validation.FormAndJsonAgree | app.py:173-185 | For the same fields, the form and JSON gates accept the same inputs with the same result. An empty quantity or price is `MissingField` on the form but `InvalidNumber` in JSON. |
| Validation.ExactGateStoresZeroPrice | app.py:56-65 | With the price compared before rounding (as written), the price text "0.001" is accepted and stored as 0 cents. The corrected gate rejects it. |
| Store.NextId | models.py:6 | A new id is at least 1 and larger than every id in use. |
| Store.Find | app.py:74 | Finds the first row with the id, or reports that no row has it. |
| Store.Get | app.py:74 | Lookup succeeds iff some row has the id, returning that row. Otherwise it is `NotFound`. |
| Store.Create | app.py:65-67 | Appends exactly one record with the input's fields and an id no existing record uses. Existing records are unchanged. |
| Store.CreatePreservesValid | app.py:60-67 | Inserting a record that passed the gate keeps the table invariant. |
| Store.CreateThenGet | app.py:65-74 | A created record is found by its id, equal in every field to the input. |
| Store.AddItem | app.py:41-68 | Succeeds iff the JSON gate accepts. The table is then exactly the old one plus the gate's record under a fresh id, appended after the unchanged old rows, and the response dictionary reads back as that record. A failure reports the gate's error and stores nothing. |
| Store.ManageItemsPost | app.py:167-190 | Succeeds iff the form gate accepts. The table is then exactly the old one plus the form's validated record under a fresh id, appended after the unchanged old rows, and the invariant holds. |
| Store.UpdateUnder | app.py:78-95 | For either price check, the outcome in the handler's order: an absent id is `NotFound`; an absent quantity is the generic error; a quantity that does not parse is `InvalidNumber`; then the same for the price; then a negative quantity, then the price check; then an absent name is `StorageError`; otherwise the update commits. |
| Store.Update | app.py:80-95 | A missing id is `NotFound`. Update commits iff the form is acceptable. It then overwrites name, quantity, price and category of that row only, keeps its id, and leaves every other row unchanged. An absent quantity or price is the generic error, and an otherwise acceptable form without a name is `StorageError`. |
| Store.UpdatePreservesValid | app.py:89-94 | A committed update keeps the table invariant. |
| Store.UpdateIdempotent | app.py:84-94 | Applying the same update twice gives the same table as applying it once. |
| Store.Delete | app.py:107-110 | With the lookup's 404 answered as such, an absent id is `NotFound`. Otherwise exactly one row is removed and the rest keep their order. |
| Store.DeleteAsWritten | app.py:104-115 | As written, an absent id is answered with the generic error of the catch-all handler, never `NotFound`. A present id is deleted exactly as by `Store.Delete`. |
| Store.AbsentDeleteIsGenericError | app.py:107-115 | For every id no row has, the handler as written answers with the generic error, while the corrected delete answers `NotFound`. |
| Store.DeleteRemovesExactly | app.py:107-110 | In a valid table, delete removes exactly the row with that id: the result is the table filtered by `id != id`. |
| Store.DeletePreservesValid | app.py:107-110 | A delete keeps the table invariant. |
| Store.Apply | app.py:65-110 | Any single create, update or delete request keeps the table invariant. A rejected request leaves the table unchanged. A successful delete removes exactly one row. |
| Store.Run | models.py:6-10 | After any series of requests on a valid table, ids are still unique, quantities ≥ 0 and prices > 0. |
| Query.FilterItems | app.py:202-210 | The result is an order-preserving subsequence of the table. It holds exactly the records whose category equals a non-empty category parameter and whose name or category contains a non-empty search, ignoring ASCII case. |
| Query.NoParametersListsAll | app.py:204-207 | With absent or empty parameters the whole table is listed, in order. |
| Query.ListItems | app.py:215 | The JSON listing has one dictionary per listed record, in order. Each dictionary reads back as its record. |
| Report.OrderFacts | app.py:129-130 | The category keys are exactly the distinct non-empty categories: no repeats, no empty key, none missing. |
| Report.AbsentCategoryIsEmpty | app.py:130-132 | A category with no record has count and value zero. |
| Report.TotalSplitsByCategory | app.py:122-132 | The total value equals the sum of the category values plus the value of the records with no or an empty category. |
| Report.OrderIsFirstAppearance | app.py:129-130 | For any two keys in order, a record of the first key comes before every record of the second. |
| Report.AddToRollupsStep | app.py:129-132 | `setdefault`-then-add on one more record turns the entries of a prefix into the entries of the longer prefix. |
| Report.SumValues | app.py:122 | The `sum` pass computes the sum of quantity × price over all records. |
| Report.CollectRollups | app.py:123-132 | The loop builds each category's count (sum of quantities) and value (sum of quantity × price). It collects the out-of-stock records in order, zero quantities included. |
| Report.BuildReport | app.py:121-138 | The report's total, per-category rollups in first-appearance order and out-of-stock list. It has one entry per distinct category, and the total equals the entries' values plus the uncategorised value. |
| Report.TotalValueText | app.py:135 | `str(total_value)` reads back as the total. It is "0" for an empty table (the integer `sum` of nothing), and two-place text otherwise. |
| CsvExport.ReportFormat | app.py:140-157 | "csv" and "json" in any ASCII case select those formats. Anything else, and no parameter, selects HTML. |
| CsvExport.CsvRows | app.py:145-147 | The rows are the header `Category,Count,Value`, then one row per category entry in order: 1 + the number of categories. Each row's cells read back as the category, count and value. |
| CsvExport.FieldRoundTrip | app.py:144-147 | A field written with minimal quoting reads back as the original text. |
| CsvExport.CsvStartsWithHeader | app.py:145 | The CSV text starts with exactly the line `Category,Count,Value\r\n`. |

## Left out

- Flask routing, request parsing, HTTP status codes, redirects and `render_template` are framework plumbing. A handler's outcome is modelled as `Ok`/`Err`.
- SQLAlchemy sessions, commit and rollback are not modelled. A failed request returns `Err` and the table stays as it was. `StorageError` arises only from the NOT NULL name column on update; other database failures, migrations and directory setup are outside the model.
- The catch-all `Exception` handlers are left out, apart from two cases answered with `GenericError`: the `TypeError` of an absent number on update, and the 404 of an absent id on delete.
- JSON field values are modelled as text or `null` only. A JSON number is read from its text, so `int()` of a JSON float (which truncates) is not modelled. Booleans, arrays and non-object bodies are not modelled.
- Text.ParseInt: surrounding whitespace, `_` digit separators and non-ASCII digits, which Python's `int` also accepts, are rejected.
- Money.ParseDecimal: exponents, `inf`, `nan`, whitespace and `_`, which Python's `float` also accepts, are rejected. Its contract says only that an accepted text is non-empty and a negative value needs a '-'. Its meaning is pinned down through `Money.FormatCents` and `Validation.ExactGateStoresZeroPrice`.
- Money.RoundToCents: rounds the exact decimal to the nearest cent, halves away from zero. The column instead stores a binary float and reads it back through "%.2f", so three kinds of price come back different: exact ties may round the other way; a value just past a tie can round down ("1.00500000000000000001" reads back as 1.00, the model gives 101 cents); and a price with more than about 15 significant digits loses its last digits ("1234567890123456.78" reads back as 1234567890123456.75, the model keeps .78). Float conversion is outside the model.
- The `Numeric(10, 2)` precision, the `String(100)` lengths and SQLite's 64-bit integer limit are not modelled, because SQLite does not enforce the first two and the model's integers are unbounded.
- SQL `LIKE` wildcards (`%`, `_`) inside the search text are not modelled: the search is a literal substring test.
- Case folding is ASCII only. This matches SQLite's `lower`, but not Python's `str.lower` in `CsvExport.ReportFormat`.
- The unordered set of categories for the `/` page is not modelled, because its order is unspecified.
- The JSON and HTML renderings of the report (`jsonify`, templates) are not modelled. The `negative` field of `Report.Summary` holds the records whose `to_dict` forms the handler lists.
- `edit_item` only renders a template; its lookup is `Store.Get`.
- Report.TotalValueText: the report's `int * Decimal` products and their sum are exact in the model. Python's default decimal context rounds each to 28 significant digits, and `str` then writes exponent notation. For example, a quantity of 10^18 at a price of 10^11 gives `1.000000000000000000000000000E+29` in the source, but two-place text in the model. The same holds for the CSV value cell (`CsvExport.CsvRows`) and for `Report.BuildReport`. Decimal contexts and exponent formatting are outside the model.

## Findings

| source | as written | input that shows it | evidently intended | confidence | as-written member | corrected member |
|---|---|---|---|---|---|---|
| app.py:62 | `price <= 0` is compared on the float before the two-place column rounds it (same at app.py:91 and app.py:184) | JSON body with name "Nut", quantity "1", price "0.001": accepted and stored with price 0.00 | reject a price that is stored as zero or less | medium, not executed | Validation.ExactGateStoresZeroPrice | Validation.ValidateJson |
| app.py:107 | `get_or_404` is called inside the `try`, so the `except Exception` at app.py:114-115 turns its 404 into a 500 generic error | a delete of id 1 on an empty table: the answer is the generic error, not 404 | answer an absent id with 404 Not Found, as `update_item` and `edit_item` do | high, not executed | Store.DeleteAsWritten | Store.Delete |

The corrected gate compares the rounded cents with zero (`PriceGate.StoredCents`). The store
operations, the update handler and the invariant proofs all use it. `Validation.ValidateJsonUnder`
with `PriceGate.ExactValue` keeps the code as written. `Store.Delete` answers an absent id
with `NotFound`, and `Store.Apply` uses it. The table it leaves is the same as under
`Store.DeleteAsWritten`; only the reported error differs.

=== FILE: csv.dfy ===
/** The CSV form of the report (app.py `get_report`): a `Category,Count,Value` header, then one
    row per category entry in dictionary order, written by Python's `csv.writer` with its
    defaults (comma, double quote, minimal quoting, "\r\n" line ends). The format parameter
    picks CSV, JSON or HTML. */
module CsvExport {
  import opened Options
  import opened Text
  import opened Money
  import opened Report

  datatype Format = Html | Json | Csv

  /** `request.args.get('format', 'html').lower()`: "csv" and "json" in any ASCII case select
      those formats; anything else, and no parameter, selects HTML. */
  function ReportFormat(arg: Option<string>): (f: Format)
    ensures arg.None? ==> f == Html
    ensures arg.Some? ==> (f == Csv <==> |arg.value| == 3 && LowerStr(arg.value) == "csv")
    ensures arg.Some? ==> (f == Json <==> |arg.value| == 4 && LowerStr(arg.value) == "json")
  {
    var name := LowerStr(if arg.Some? then arg.value else "html");
    assert arg.None? ==> name[0] == 'h';
    if name == "csv" then Csv else if name == "json" then Json else Html
  }

  const Header: seq<string> := ["Category", "Count", "Value"]

  /** The rows `csv.writer` receives: `[cat, count, value]` with `str` applied to each cell. */
  function CsvRows(r: Summary): (rows: seq<seq<string>>)
    ensures |rows| == 1 + |r.categories|
    ensures rows[0] == Header
    ensures forall k :: 0 <= k < |r.categories| ==>
      && |rows[k + 1]| == 3
      && rows[k + 1][0] == r.categories[k].category
      && ParseInt(rows[k + 1][1]) == Some(r.categories[k].count)
      && ParseDecimal(rows[k + 1][2]) == Some(Decimal(r.categories[k].value, 2))
  {
    [Header] + seq(|r.categories|, k requires 0 <= k < |r.categories| =>
                   [r.categories[k].category, IntText(r.categories[k].count), FormatCents(r.categories[k].value)])
  }

  /** A field must be quoted when it holds the delimiter, the quote character or a line break. */
  predicate NeedsQuotes(s: string) {
    ',' in s || '"' in s || '\r' in s || '\n' in s
  }

  /** Doubles every quote character. */
  function EscapeQuotes(s: string): (e: string)
    ensures |e| >= |s|
  {
    if |s| == 0 then ""
    else if s[0] == '"' then "\"\"" + EscapeQuotes(s[1..])
    else [s[0]] + EscapeQuotes(s[1..])
  }

  /** One field as written with minimal quoting. */
  function CsvField(s: string): string {
    if NeedsQuotes(s) then "\"" + EscapeQuotes(s) + "\"" else s
  }

  /** Collapses every doubled quote character. */
  function UnescapeQuotes(e: string): string {
    if |e| == 0 then ""
    else if |e| >= 2 && e[0] == '"' && e[1] == '"' then "\"" + UnescapeQuotes(e[2..])
    else [e[0]] + UnescapeQuotes(e[1..])
  }

  /** How a reader takes one field back: a quoted field loses its quotes and its doubled quotes. */
  function ReadField(t: string): string {
    if |t| >= 2 && t[0] == '"' && t[|t| - 1] == '"' then UnescapeQuotes(t[1..|t| - 1]) else t
  }

  lemma {:induction false} UnescapeEscape(s: string)
    ensures UnescapeQuotes(EscapeQuotes(s)) == s
    decreases |s|
  {
    if |s| > 0 {
      UnescapeEscape(s[1..]);
      var e := EscapeQuotes(s);
      if s[0] == '"' {
        assert e[2..] == EscapeQuotes(s[1..]);
      } else {
        assert e[1..] == EscapeQuotes(s[1..]);
      }
      assert s == [s[0]] + s[1..];
    }
  }

  /** Quoting loses nothing: every field reads back as the text that was written. */
  lemma FieldRoundTrip(s: string)
    ensures ReadField(CsvField(s)) == s
  {
    if NeedsQuotes(s) {
      var t := CsvField(s);
      assert t[1..|t| - 1] == EscapeQuotes(s);
      UnescapeEscape(s);
    } else if |s| >= 2 {
      assert s[0] in s;
    }
  }

  function JoinFields(cells: seq<string>): string {
    if |cells| == 0 then ""
    else if |cells| == 1 then CsvField(cells[0])
    else CsvField(cells[0]) + "," + JoinFields(cells[1..])
  }

  /** The text of the CSV response: each row's fields joined by commas, each line ended by "\r\n". */
  function CsvText(rows: seq<seq<string>>): string {
    if |rows| == 0 then "" else JoinFields(rows[0]) + "\r\n" + CsvText(rows[1..])
  }

  /** No header name needs quoting. */
  lemma HeaderLine()
    ensures JoinFields(Header) == "Category,Count,Value"
  {
    assert Header[1..] == ["Count", "Value"];
    assert Header[1..][1..] == ["Value"];
    PlainField("Category");
    PlainField("Count");
    PlainField("Value");
  }

  lemma PlainField(s: string)
    requires forall i :: 0 <= i < |s| ==> 'A' <= s[i] <= 'z'
    ensures CsvField(s) == s
  {
  }

  /** The CSV response of a report starts with exactly the header line. */
  lemma CsvStartsWithHeader(rows: seq<seq<string>>)
    requires |rows| > 0 && rows[0] == Header
    ensures var t := CsvText(rows); |t| >= 22 && t[..22] == "Category,Count,Value\r\n"
  {
    HeaderLine();
    var t := CsvText(rows);
    assert t == "Category,Count,Value" + "\r\n" + CsvText(rows[1..]);
  }
}

=== FILE: errors.dfy ===
/** The outcomes the item handlers report instead of a stored change. */
module Errors {
  /** `NoData` … `NonPositivePrice` are the create gate's answers. `NotFound` is the 404 of
      `get_or_404`. `GenericError` is the answer of a handler's catch-all `except Exception`
      ("Произошла ошибка: …"). `StorageError` is a commit the database rejects. */
  datatype Error =
    | NoData
    | MissingField
    | InvalidNumber
    | NegativeQuantity
    | NonPositivePrice
    | NotFound
    | GenericError
    | StorageError
}

=== FILE: items.dfy ===
/** The `Item` table (models.py): one record per inventory item, and its dictionary form. */
module Items {
  import opened Options
  import opened Money

  /** One row of the table. `id` is the primary key; `name`, `quantity` and `price` are
      NOT NULL columns; `category` is nullable; `price` has two fractional digits, held as cents. */
  datatype Item = Item(id: int, name: string, quantity: int, price: Cents, category: Option<string>)

  /** The dictionary `to_dict` returns: the five columns, with the price written as decimal text. */
  datatype ItemDict = ItemDict(id: int, name: string, quantity: int, price: string, category: Option<string>)

  /** The serialised form of a record: every column copied unchanged, the price as its two-place text. */
  function ToDict(it: Item): (d: ItemDict)
    ensures d.id == it.id && d.name == it.name && d.quantity == it.quantity
    ensures d.category == it.category
    ensures |d.price| >= 4 && d.price[|d.price| - 3] == '.'
  {
    ItemDict(it.id, it.name, it.quantity, FormatCents(it.price), it.category)
  }

  /** Reads a dictionary back into a record; the price must be text with exactly two fractional digits. */
  function FromDict(d: ItemDict): Option<Item> {
    match ParseDecimal(d.price)
    case Some(p) => if p.scale == 2 then Some(Item(d.id, d.name, d.quantity, p.units, d.category)) else None
    case None => None
  }

  /** Nothing is lost by serialising a record: reading its dictionary back gives the same record. */
  lemma ToDictRoundTrip(it: Item)
    ensures FromDict(ToDict(it)) == Some(it)
  {
  }
}

=== FILE: money.dfy ===
/** Prices as integer cents. Text is read into an exact decimal, rounded to the two
    fractional digits of the `Numeric(10, 2)` price column, and written back the way
    Python's `str` writes a two-place `Decimal`. */
module Money {
  import opened Options
  import opened Text

  /** An amount of money in hundredths of the currency unit. */
  type Cents = int

  /** The exact number `units / 10^scale`, as read from text with `scale` fractional digits. */
  datatype Decimal = Decimal(units: int, scale: nat)

  function Pow10(n: nat): (r: nat)
    ensures r >= 1
  {
    if n == 0 then 1 else 10 * Pow10(n - 1)
  }

  /** Position of the first '.' in `s`, or `|s|` when there is none. */
  function DotIndex(s: string): (k: nat)
    ensures k <= |s|
    ensures k < |s| ==> s[k] == '.'
    ensures forall i :: 0 <= i < k ==> s[i] != '.'
  {
    if |s| == 0 then 0
    else if s[0] == '.' then 0
    else 1 + DotIndex(s[1..])
  }

  /** An unsigned decimal literal: digits, optionally followed by '.' and more digits,
      with at least one digit in all. */
  function ParseUnsigned(s: string): (r: Option<Decimal>)
    ensures r.Some? ==> |s| > 0 && r.value.units >= 0
  {
    var k := DotIndex(s);
    if k == |s| then
      if |s| > 0 && AllDigits(s) then Some(Decimal(DigitsValue(s), 0)) else None
    else PointedValue(s[..k], s[k + 1..])
  }

  /** The digits on either side of the point, at least one in all. */
  function PointedValue(whole: string, frac: string): (r: Option<Decimal>)
    ensures r.Some? ==> r.value.units >= 0
  {
    if 0 < |whole| + |frac| && AllDigits(whole) && AllDigits(frac) then
      Some(Decimal(DigitsValue(whole) * Pow10(|frac|) + DigitsValue(frac), |frac|))
    else None
  }

  /** Python's `float(s)` restricted to plain decimal literals, kept exact.
      `None` stands for the `ValueError` it raises. */
  function ParseDecimal(s: string): (r: Option<Decimal>)
    ensures r.Some? ==> |s| > 0
    ensures r.Some? && r.value.units < 0 ==> s[0] == '-'
  {
    var signed := |s| > 0 && (s[0] == '-' || s[0] == '+');
    var magnitude := ParseUnsigned(if signed then s[1..] else s);
    match magnitude
    case None => None
    case Some(d) => Some(if signed && s[0] == '-' then Decimal(-d.units, d.scale) else d)
  }

  function Abs(x: int): nat {
    if x < 0 then -x else x
  }

  lemma Pow10Split(n: nat)
    requires n >= 2
    ensures Pow10(n) == 100 * Pow10(n - 2)
  {
    if n > 2 {
      Pow10Split(n - 1);
    }
  }

  /** `m / q` rounded to the nearest integer, halves upward: it misses by at most half. */
  function NearestQuotient(m: nat, q: nat): (r: nat)
    requires q >= 1
    ensures 2 * Abs(m - q * r) <= q
  {
    var r := (2 * m + q) / (2 * q);
    var rem := (2 * m + q) % (2 * q);
    assert 2 * m + q == 2 * q * r + rem && 0 <= rem < 2 * q;
    r
  }

  /** The error bound of `NearestQuotient`, scaled to the exponent of the decimal. */
  lemma ScaledError(m: nat, rounded: int, scale: nat)
    requires scale > 2
    requires 2 * Abs(m - Pow10(scale - 2) * rounded) <= Pow10(scale - 2)
    ensures 2 * Abs(100 * m - rounded * Pow10(scale)) <= Pow10(scale)
  {
    var q := Pow10(scale - 2);
    Pow10Split(scale);
    assert 100 * m - rounded * Pow10(scale) == 100 * (m - q * rounded);
  }

  /** Scaling a decimal with at most two fractional digits to cents loses nothing. */
  lemma ExactCents(units: int, scale: nat)
    requires scale <= 2
    ensures units * Pow10(2 - scale) * Pow10(scale) == units * 100
    ensures units >= 0 ==> units * Pow10(2 - scale) >= 0
    ensures units <= 0 ==> units * Pow10(2 - scale) <= 0
  {
    assert Pow10(0) == 1 && Pow10(1) == 10 && Pow10(2) == 100;
    if scale == 0 {
    } else if scale == 1 {
    } else {
    }
  }

  /** Rounds `units / 10^scale` to the nearest cent, halves away from zero. */
  function RoundFraction(units: int, scale: nat): (c: Cents)
    requires scale > 2
    ensures 2 * Abs(100 * units - c * Pow10(scale)) <= Pow10(scale)
    ensures units >= 0 ==> c >= 0
    ensures units <= 0 ==> c <= 0
  {
    var q := Pow10(scale - 2);
    var m := Abs(units);
    var rounded := NearestQuotient(m, q);
    ScaledError(m, rounded, scale);
    if units < 0 then
      MirroredError(m, rounded, Pow10(scale));
      -(rounded as int)
    else rounded
  }

  lemma MirroredError(m: int, r: int, p: int)
    ensures Abs(100 * -m - (-r) * p) == Abs(100 * m - r * p)
  {
    assert 100 * -m - (-r) * p == -(100 * m - r * p);
  }

  /** The cents a decimal is stored as: exact when it has at most two fractional digits,
      otherwise rounded to the nearest cent, halves away from zero. */
  function RoundToCents(d: Decimal): (c: Cents)
    ensures d.scale <= 2 ==> c * Pow10(d.scale) == d.units * 100
    ensures 2 * Abs(100 * d.units - c * Pow10(d.scale)) <= Pow10(d.scale)
    ensures d.units >= 0 ==> c >= 0
    ensures d.units <= 0 ==> c <= 0
  {
    if d.scale <= 2 then
      ExactCents(d.units, d.scale);
      d.units * Pow10(2 - d.scale)
    else RoundFraction(d.units, d.scale)
  }

  /** Two-place text of a number of cents, as `str` writes a `Decimal` of scale 2:
      an optional '-', the whole units without leading zeros, '.', two digits. */
  function FormatCents(c: Cents): (s: string)
    ensures ParseDecimal(s) == Some(Decimal(c, 2))
    ensures c >= 0 ==> TwoPlaceShape(s)
    ensures c < 0 ==> s[0] == '-' && TwoPlaceShape(s[1..])
  {
    var m := Abs(c);
    var body := NatText(m / 100) + "." + [DigitChar(m % 100 / 10), DigitChar(m % 10)];
    FormattedParses(m);
    UnsignedShape(m);
    if c < 0 then
      var s := "-" + body;
      assert s[1..] == body;
      s
    else body
  }

  /** Whole units, a point and two digits: the shape of an unsigned two-place text. */
  predicate TwoPlaceShape(t: string) {
    |t| >= 4 && t[|t| - 3] == '.' && AllDigits(t[|t| - 2..]) && Canonical(t[..|t| - 3])
  }

  lemma UnsignedShape(m: nat)
    ensures TwoPlaceShape(NatText(m / 100) + "." + [DigitChar(m % 100 / 10), DigitChar(m % 10)])
  {
    var body := NatText(m / 100) + "." + [DigitChar(m % 100 / 10), DigitChar(m % 10)];
    assert body[..|body| - 3] == NatText(m / 100);
    assert body[|body| - 2..] == [DigitChar(m % 100 / 10), DigitChar(m % 10)];
  }

  lemma TwoDigits(m: nat)
    ensures DigitsValue([DigitChar(m % 100 / 10), DigitChar(m % 10)]) == m % 100
  {
    var hi, lo := m % 100 / 10, m % 10;
    var frac := [DigitChar(hi), DigitChar(lo)];
    assert frac[..1] == [DigitChar(hi)];
    assert [DigitChar(hi)][..0] == [];
    assert DigitsValue([DigitChar(hi)]) == hi;
    assert DigitsValue(frac) == 10 * hi + lo;
    assert 10 * hi + lo == m % 100;
  }

  /** In digits followed by a point, the first point is the one after the digits. */
  lemma DotAfterDigits(whole: string, frac: string)
    requires AllDigits(whole)
    ensures DotIndex(whole + "." + frac) == |whole|
  {
    var s := whole + "." + frac;
    assert s[|whole|] == '.';
  }

  /** Whole digits, a point and fractional digits read as the exact decimal they denote. */
  lemma ParsePointed(whole: string, frac: string)
    requires |whole| > 0 && AllDigits(whole) && AllDigits(frac)
    ensures ParseUnsigned(whole + "." + frac) == PointedValue(whole, frac)
  {
    var s := whole + "." + frac;
    DotAfterDigits(whole, frac);
    assert s[..|whole|] == whole;
    assert s[|whole| + 1..] == frac;
  }

  lemma FormattedParses(m: nat)
    ensures ParseUnsigned(NatText(m / 100) + "." + [DigitChar(m % 100 / 10), DigitChar(m % 10)])
            == Some(Decimal(m, 2))
  {
    var frac := [DigitChar(m % 100 / 10), DigitChar(m % 10)];
    ParsePointed(NatText(m / 100), frac);
    assert AllDigits(frac);
    TwoDigits(m);
    assert Pow10(|frac|) == 100;
    assert m / 100 * 100 + m % 100 == m;
  }
}

=== FILE: options.dfy ===
/** Optional values and results shared by every module of the inventory model. */
module Options {

  /** A value that may be absent, like a Python `None`. */
  datatype Option<+T> = None | Some(value: T)

  /** Either the computed value or the error that stopped the computation. */
  datatype Result<+T, +E> = Ok(value: T) | Err(error: E)
}

=== FILE: query.dfy ===
/** The item listing of `get_items` (app.py): an exact category filter when the `category`
    parameter is non-empty, then a case-insensitive substring search over name or category
    when the `search` parameter is non-empty, keeping the table's order. */
module Query {
  import opened Options
  import opened Seqs
  import opened Text
  import opened Items
  import opened Validation
  import opened Store

  /** `filter_by(category=...)`, applied only when the parameter is truthy. */
  predicate CategoryMatches(it: Item, category: Option<string>) {
    !Truthy(category) || it.category == category
  }

  /** `name ILIKE %s% OR category ILIKE %s%`, applied only when the parameter is truthy;
      a NULL category matches nothing. */
  predicate SearchMatches(it: Item, search: Option<string>) {
    || !Truthy(search)
    || ContainsCI(it.name, search.value)
    || (it.category.Some? && ContainsCI(it.category.value, search.value))
  }

  lemma ContainsIsOccurs()
    ensures forall hay, needle :: ContainsCI(hay, needle) <==> OccursCI(hay, needle)
  {
    forall hay, needle ensures ContainsCI(hay, needle) <==> OccursCI(hay, needle) {
      ContainsCIMeansOccurs(hay, needle);
    }
  }

  /** The listed records: an order-preserving subsequence of the table holding exactly the
      records whose category equals a non-empty `category` and whose name or category contains
      a non-empty `search`, ignoring ASCII case. */
  function FilterItems(items: seq<Item>, category: Option<string>, search: Option<string>): (r: seq<Item>)
    ensures IsSubseq(r, items)
    ensures forall it :: it in r <==>
      && it in items
      && (Truthy(category) ==> it.category == category)
      && (Truthy(search) ==> OccursCI(it.name, search.value)
                             || (it.category.Some? && OccursCI(it.category.value, search.value)))
  {
    ContainsIsOccurs();
    var byCategory := Filter((it: Item) => CategoryMatches(it, category), items);
    var r := Filter((it: Item) => SearchMatches(it, search), byCategory);
    SubseqTransitive(r, byCategory, items);
    r
  }

  /** Absent or empty parameters impose no restriction: the whole table is listed, in order. */
  lemma {:induction false} NoParametersListsAll(items: seq<Item>, category: Option<string>, search: Option<string>)
    requires !Truthy(category) && !Truthy(search)
    ensures FilterItems(items, category, search) == items
    decreases |items|
  {
    KeepAll((it: Item) => CategoryMatches(it, category), items);
    KeepAll((it: Item) => SearchMatches(it, search), items);
  }

  lemma {:induction false} KeepAll(p: Item -> bool, items: seq<Item>)
    requires forall it :: p(it)
    ensures Filter(p, items) == items
    decreases |items|
  {
    if |items| > 0 {
      KeepAll(p, items[1..]);
      assert items == [items[0]] + items[1..];
    }
  }

  /** `GET /items`: the dictionaries of the listed records, in the same order. */
  function ListItems(s: Table, category: Option<string>, search: Option<string>): (r: seq<ItemDict>)
    ensures |r| == |FilterItems(s.items, category, search)|
    ensures forall i :: 0 <= i < |r| ==> FromDict(r[i]) == Some(FilterItems(s.items, category, search)[i])
  {
    var listed := FilterItems(s.items, category, search);
    seq(|listed|, i requires 0 <= i < |listed| => ToDict(listed[i]))
  }
}

=== FILE: report.dfy ===
/** The summary report of `get_report` (app.py): the total stock value, a rollup of count
    and value per non-empty category in order of first appearance, and the records that are
    out of stock. Reference meanings are sums over the table, defined from its last record back. */
module Report {
  import opened Options
  import opened Seqs
  import opened Text
  import opened Money
  import opened Items

  /** Stock value of one record, in cents: quantity times unit price. */
  function ItemValue(it: Item): Cents {
    it.quantity * it.price
  }

  /** A category that counts for the rollups: present and non-empty (Python truthiness). */
  predicate Categorised(it: Item) {
    Truthy(it.category)
  }

  predicate InCategory(it: Item, c: string) {
    Categorised(it) && it.category.value == c
  }

  /** Sum of quantity times price over all records. */
  function TotalValue(items: seq<Item>): Cents {
    if |items| == 0 then 0 else TotalValue(items[..|items| - 1]) + ItemValue(items[|items| - 1])
  }

  /** Sum of the quantities of the records in category `c`. */
  function CategoryCount(items: seq<Item>, c: string): int {
    if |items| == 0 then 0
    else CategoryCount(items[..|items| - 1], c) + (if InCategory(items[|items| - 1], c) then items[|items| - 1].quantity else 0)
  }

  /** Sum of the values of the records in category `c`. */
  function CategoryValue(items: seq<Item>, c: string): Cents {
    if |items| == 0 then 0
    else CategoryValue(items[..|items| - 1], c) + (if InCategory(items[|items| - 1], c) then ItemValue(items[|items| - 1]) else 0)
  }

  /** Sum of the values of the records with no category or an empty one. */
  function UncategorisedValue(items: seq<Item>): Cents {
    if |items| == 0 then 0
    else UncategorisedValue(items[..|items| - 1]) + (if Categorised(items[|items| - 1]) then 0 else ItemValue(items[|items| - 1]))
  }

  /** The non-empty categories in the order they first appear. */
  function CategoryOrder(items: seq<Item>): seq<string> {
    if |items| == 0 then []
    else
      var order := CategoryOrder(items[..|items| - 1]);
      var last := items[|items| - 1];
      if Categorised(last) && last.category.value !in order then order + [last.category.value] else order
  }

  /** The set of non-empty categories of the table. */
  function CategorySet(items: seq<Item>): set<string> {
    set i | 0 <= i < |items| && Categorised(items[i]) :: items[i].category.value
  }

  /** The out-of-stock records (quantity at most zero, so zero counts), in table order. */
  function OutOfStock(items: seq<Item>): seq<Item> {
    Filter(IsOutOfStock, items)
  }

  predicate IsOutOfStock(it: Item) {
    it.quantity <= 0
  }

  /** One entry of the `categories` dictionary. */
  datatype Rollup = Rollup(category: string, count: int, value: Cents)

  /** The report: `categories` is a dictionary kept as a list in insertion order. */
  datatype Summary = Summary(total: Cents, categories: seq<Rollup>, negative: seq<Item>)

  function Keys(rs: seq<Rollup>): (ks: seq<string>)
    ensures |ks| == |rs| && forall k :: 0 <= k < |rs| ==> ks[k] == rs[k].category
  {
    seq(|rs|, k requires 0 <= k < |rs| => rs[k].category)
  }

  function SumRollups(rs: seq<Rollup>): Cents {
    if |rs| == 0 then 0 else SumRollups(rs[..|rs| - 1]) + rs[|rs| - 1].value
  }

  /** Sum of the category values over the listed categories. */
  function SumCategoryValues(items: seq<Item>, cs: seq<string>): Cents {
    if |cs| == 0 then 0 else SumCategoryValues(items, cs[..|cs| - 1]) + CategoryValue(items, cs[|cs| - 1])
  }

  /** How each reference sum changes when one record is added at the end. */
  lemma SnocTotal(items: seq<Item>, x: Item)
    ensures TotalValue(items + [x]) == TotalValue(items) + ItemValue(x)
    ensures UncategorisedValue(items + [x]) == UncategorisedValue(items) + (if Categorised(x) then 0 else ItemValue(x))
  {
    var s := items + [x];
    assert s[..|s| - 1] == items && s[|s| - 1] == x;
  }

  lemma SnocCategory(items: seq<Item>, x: Item)
    ensures forall c :: CategoryCount(items + [x], c) == CategoryCount(items, c) + (if InCategory(x, c) then x.quantity else 0)
    ensures forall c :: CategoryValue(items + [x], c) == CategoryValue(items, c) + (if InCategory(x, c) then ItemValue(x) else 0)
  {
    var s := items + [x];
    assert s[..|s| - 1] == items && s[|s| - 1] == x;
  }

  lemma SnocOrder(items: seq<Item>, x: Item)
    ensures CategoryOrder(items + [x]) == (if Categorised(x) && x.category.value !in CategoryOrder(items)
                                           then CategoryOrder(items) + [x.category.value] else CategoryOrder(items))
  {
    var s := items + [x];
    assert s[..|s| - 1] == items && s[|s| - 1] == x;
  }

  /** The category order lists every non-empty category exactly once, and nothing else. */
  lemma {:induction false} OrderFacts(items: seq<Item>)
    ensures Distinct(CategoryOrder(items))
    ensures forall c :: c in CategoryOrder(items) <==> c in CategorySet(items)
    ensures forall c :: c in CategoryOrder(items) ==> c != ""
    decreases |items|
  {
    if |items| > 0 {
      var prefix := items[..|items| - 1];
      var x := items[|items| - 1];
      assert items == prefix + [x];
      OrderFacts(prefix);
      SnocOrder(prefix, x);
      assert CategorySet(items) == CategorySet(prefix) + (if Categorised(x) then {x.category.value} else {}) by {
        forall c ensures c in CategorySet(items) <==> c in CategorySet(prefix) + (if Categorised(x) then {x.category.value} else {}) {
          if c in CategorySet(items) {
            var i :| 0 <= i < |items| && Categorised(items[i]) && items[i].category.value == c;
            if i < |prefix| {
              assert prefix[i] == items[i];
            }
          }
          if c in CategorySet(prefix) {
            var i :| 0 <= i < |prefix| && Categorised(prefix[i]) && prefix[i].category.value == c;
            assert items[i] == prefix[i];
          }
        }
      }
    }
  }

  /** A category that has not appeared has count and value zero. */
  lemma {:induction false} AbsentCategoryIsEmpty(items: seq<Item>, c: string)
    requires c !in CategoryOrder(items)
    ensures CategoryCount(items, c) == 0 && CategoryValue(items, c) == 0
    decreases |items|
  {
    if |items| > 0 {
      var prefix := items[..|items| - 1];
      var x := items[|items| - 1];
      assert items == prefix + [x];
      SnocOrder(prefix, x);
      SnocCategory(prefix, x);
      AbsentCategoryIsEmpty(prefix, c);
    }
  }

  /** Adding a record changes the sum over distinct categories by its value exactly when its
      category is one of them. */
  lemma {:induction false} SumCategoryStep(items: seq<Item>, x: Item, cs: seq<string>)
    requires Distinct(cs)
    ensures SumCategoryValues(items + [x], cs)
            == SumCategoryValues(items, cs) + (if Categorised(x) && x.category.value in cs then ItemValue(x) else 0)
    decreases |cs|
  {
    SnocCategory(items, x);
    if |cs| > 0 {
      var init := cs[..|cs| - 1];
      assert Distinct(init);
      SumCategoryStep(items, x, init);
      assert cs == init + [cs[|cs| - 1]];
    }
  }

  /** The total value is the sum of the category values plus the value of the records
      without a (non-empty) category. */
  lemma {:induction false} TotalSplitsByCategory(items: seq<Item>)
    ensures TotalValue(items) == SumCategoryValues(items, CategoryOrder(items)) + UncategorisedValue(items)
    decreases |items|
  {
    if |items| > 0 {
      var prefix := items[..|items| - 1];
      var x := items[|items| - 1];
      assert items == prefix + [x];
      TotalSplitsByCategory(prefix);
      SnocTotal(prefix, x);
      SnocOrder(prefix, x);
      OrderFacts(prefix);
      var order := CategoryOrder(prefix);
      SumCategoryStep(prefix, x, order);
      if Categorised(x) && x.category.value !in order {
        var c := x.category.value;
        AbsentCategoryIsEmpty(prefix, c);
        assert (order + [c])[..|order|] == order;
      }
    }
  }

  /** Categories appear in the report in the order of their first records: for two categories
      listed in that order, a record of the first comes before every record of the second. */
  ghost predicate FirstSeenBefore(items: seq<Item>, a: string, b: string) {
    exists i :: 0 <= i < |items| && InCategory(items[i], a) && forall j :: 0 <= j <= i ==> !InCategory(items[j], b)
  }

  lemma {:induction false} OrderIsFirstAppearance(items: seq<Item>)
    ensures var order := CategoryOrder(items);
      forall p, q :: 0 <= p < q < |order| ==> FirstSeenBefore(items, order[p], order[q])
    decreases |items|
  {
    if |items| > 0 {
      var prefix := items[..|items| - 1];
      var x := items[|items| - 1];
      assert items == prefix + [x];
      OrderIsFirstAppearance(prefix);
      OrderFacts(prefix);
      SnocOrder(prefix, x);
      var old_order := CategoryOrder(prefix);
      var order := CategoryOrder(items);
      forall p, q | 0 <= p < q < |order| ensures FirstSeenBefore(items, order[p], order[q]) {
        if q < |old_order| {
          assert FirstSeenBefore(prefix, old_order[p], old_order[q]);
          var i :| 0 <= i < |prefix| && InCategory(prefix[i], old_order[p])
                   && forall j :: 0 <= j <= i ==> !InCategory(prefix[j], old_order[q]);
          assert items[i] == prefix[i];
          forall j | 0 <= j <= i ensures !InCategory(items[j], order[q]) {
            assert items[j] == prefix[j];
          }
        } else {
          var a := old_order[p];
          var c := order[q];
          assert a in CategorySet(prefix);
          var i :| 0 <= i < |prefix| && Categorised(prefix[i]) && prefix[i].category.value == a;
          assert items[i] == prefix[i];
          forall j | 0 <= j <= i ensures !InCategory(items[j], c) {
            assert items[j] == prefix[j];
          }
        }
      }
    }
  }

  function IndexOfKey(rs: seq<Rollup>, c: string): (k: Option<nat>)
    ensures k.Some? ==> k.value < |rs| && rs[k.value].category == c
    ensures k.None? ==> forall j :: 0 <= j < |rs| ==> rs[j].category != c
  {
    if |rs| == 0 then None
    else if rs[0].category == c then Some(0)
    else match IndexOfKey(rs[1..], c)
      case None => None
      case Some(k) => Some(k + 1)
  }

  lemma RollupsSum(rs: seq<Rollup>, items: seq<Item>)
    requires forall k :: 0 <= k < |rs| ==> rs[k].value == CategoryValue(items, rs[k].category)
    ensures SumRollups(rs) == SumCategoryValues(items, Keys(rs))
  {
    if |rs| > 0 {
      var init := rs[..|rs| - 1];
      RollupsSum(init, items);
      assert Keys(rs)[..|rs| - 1] == Keys(init);
    }
  }

  /** `cats` holds exactly the category entries the records `items` produce, in order. */
  predicate RollupsOf(cats: seq<Rollup>, items: seq<Item>) {
    && Keys(cats) == CategoryOrder(items)
    && forall k :: 0 <= k < |cats| ==>
         cats[k].count == CategoryCount(items, cats[k].category)
         && cats[k].value == CategoryValue(items, cats[k].category)
  }

  /** One record's contribution to the `categories` dictionary: `setdefault` its category,
      then add its quantity and value; records without a non-empty category add nothing. */
  function AddToRollups(cats: seq<Rollup>, it: Item): seq<Rollup> {
    if !Categorised(it) then cats
    else
      var c := it.category.value;
      var withKey := if IndexOfKey(cats, c).None? then cats + [Rollup(c, 0, 0)] else cats;
      var j := if IndexOfKey(cats, c).None? then |cats| else IndexOfKey(cats, c).value;
      withKey[j := Rollup(c, withKey[j].count + it.quantity, withKey[j].value + ItemValue(it))]
  }

  /** Folding one more record into the entries of a prefix gives the entries of the longer prefix. */
  lemma AddToRollupsStep(cats: seq<Rollup>, items: seq<Item>, it: Item)
    requires RollupsOf(cats, items)
    ensures RollupsOf(AddToRollups(cats, it), items + [it])
  {
    SnocOrder(items, it);
    SnocCategory(items, it);
    OrderFacts(items);
    if Categorised(it) && IndexOfKey(cats, it.category.value).None? {
      AbsentCategoryIsEmpty(items, it.category.value);
    }
  }

  /** The total, as `sum` computes it in its own pass over the records. */
  method SumValues(items: seq<Item>) returns (total: Cents)
    ensures total == TotalValue(items)
  {
    total := 0;
    for i := 0 to |items|
      invariant total == TotalValue(items[..i])
    {
      SnocTotal(items[..i], items[i]);
      assert items[..i + 1] == items[..i] + [items[i]];
      total := total + ItemValue(items[i]);
    }
    assert items[..|items|] == items;
  }

  /** The loop of `get_report`: collect the out-of-stock records and build the category entries. */
  method CollectRollups(items: seq<Item>) returns (cats: seq<Rollup>, negative: seq<Item>)
    ensures RollupsOf(cats, items)
    ensures negative == OutOfStock(items)
  {
    cats := [];
    negative := [];
    for i := 0 to |items|
      invariant RollupsOf(cats, items[..i])
      invariant negative == OutOfStock(items[..i])
    {
      var it := items[i];
      CollectStep(cats, negative, items[..i], it);
      assert items[..i + 1] == items[..i] + [it];
      if it.quantity <= 0 {
        negative := negative + [it];
      }
      cats := AddToRollups(cats, it);
    }
    assert items[..|items|] == items;
  }

  /** One turn of the `get_report` loop extends both of its results from a prefix to the longer prefix. */
  lemma CollectStep(cats: seq<Rollup>, negative: seq<Item>, prefix: seq<Item>, it: Item)
    requires RollupsOf(cats, prefix) && negative == OutOfStock(prefix)
    ensures RollupsOf(AddToRollups(cats, it), prefix + [it])
    ensures (if it.quantity <= 0 then negative + [it] else negative) == OutOfStock(prefix + [it])
  {
    FilterSnoc(IsOutOfStock, prefix, it);
    AddToRollupsStep(cats, prefix, it);
  }

  /** `get_report`'s aggregation. */
  method BuildReport(items: seq<Item>) returns (r: Summary)
    ensures r.total == TotalValue(items)
    ensures Keys(r.categories) == CategoryOrder(items)
    ensures forall k :: 0 <= k < |r.categories| ==>
      r.categories[k].count == CategoryCount(items, r.categories[k].category)
      && r.categories[k].value == CategoryValue(items, r.categories[k].category)
    ensures |r.categories| == |CategorySet(items)|
    ensures r.total == SumRollups(r.categories) + UncategorisedValue(items)
    ensures r.negative == OutOfStock(items)
  {
    var total := SumValues(items);
    var cats, negative := CollectRollups(items);
    OrderFacts(items);
    DistinctCardinality(CategoryOrder(items));
    assert (set x | x in CategoryOrder(items)) == CategorySet(items);
    TotalSplitsByCategory(items);
    RollupsSum(cats, items);
    r := Summary(total, cats, negative);
  }

  /** `str(total_value)`: `sum` of no records is the integer 0, written "0"; otherwise a
      two-place decimal. Either way the text reads back as the total. */
  function TotalValueText(items: seq<Item>): (s: string)
    ensures |items| == 0 ==> s == "0" && ParseDecimal(s) == Some(Decimal(0, 0))
    ensures |items| > 0 ==> ParseDecimal(s) == Some(Decimal(TotalValue(items), 2))
  {
    if |items| == 0 then
      assert ParseUnsigned("0") == Some(Decimal(0, 0)) by {
        assert "0"[..0] == [];
      }
      "0"
    else FormatCents(TotalValue(items))
  }
}

=== FILE: seqs.dfy ===
/** Order-preserving selection over sequences, used by the item query and the report. */
module Seqs {

  /** `xs` can be obtained from `ys` by deleting elements, keeping the order of the rest. */
  predicate IsSubseq<T(==)>(xs: seq<T>, ys: seq<T>)
    decreases |ys|
  {
    if |xs| == 0 then true
    else if |ys| == 0 then false
    else if xs[0] == ys[0] then IsSubseq(xs[1..], ys[1..])
    else IsSubseq(xs, ys[1..])
  }

  /** No element occurs twice. */
  predicate Distinct<T(==)>(xs: seq<T>) {
    forall i, j :: 0 <= i < j < |xs| ==> xs[i] != xs[j]
  }

  /** The elements of `xs` that satisfy `p`, in their original order. */
  function Filter<T(==,!new)>(p: T -> bool, xs: seq<T>): (r: seq<T>)
    ensures IsSubseq(r, xs)
    ensures forall x :: x in r <==> x in xs && p(x)
  {
    if |xs| == 0 then []
    else
      var rest := Filter(p, xs[1..]);
      if p(xs[0]) then [xs[0]] + rest else rest
  }

  /** Filtering a sequence extended at the end extends the filtered sequence at the end. */
  lemma {:induction false} FilterSnoc<T(!new)>(p: T -> bool, xs: seq<T>, x: T)
    ensures Filter(p, xs + [x]) == Filter(p, xs) + (if p(x) then [x] else [])
    decreases |xs|
  {
    if |xs| == 0 {
      assert xs + [x] == [x];
      assert [x][1..] == [];
    } else {
      assert (xs + [x])[1..] == xs[1..] + [x];
      FilterSnoc(p, xs[1..], x);
    }
  }

  /** Filtering distributes over concatenation. */
  lemma {:induction false} FilterAppend<T(!new)>(p: T -> bool, xs: seq<T>, ys: seq<T>)
    ensures Filter(p, xs + ys) == Filter(p, xs) + Filter(p, ys)
    decreases |xs|
  {
    if |xs| == 0 {
      assert xs + ys == ys;
    } else {
      assert (xs + ys)[1..] == xs[1..] + ys;
      FilterAppend(p, xs[1..], ys);
    }
  }

  /** A sequence is its elements before a position, the element there, and those after it. */
  lemma Around<T>(xs: seq<T>, k: nat)
    requires k < |xs|
    ensures xs[..k] + ([xs[k]] + xs[k + 1..]) == xs
  {
  }

  /** Filtering out an element the predicate rejects leaves the filtered parts around it. */
  lemma FilterDrop<T(!new)>(p: T -> bool, xs: seq<T>, k: nat)
    requires k < |xs| && !p(xs[k])
    ensures Filter(p, xs) == Filter(p, xs[..k]) + Filter(p, xs[k + 1..])
  {
    var before, at, after := xs[..k], [xs[k]], xs[k + 1..];
    Around(xs, k);
    FilterAppend(p, before, at + after);
    FilterAppend(p, at, after);
    assert at[1..] == [];
  }

  /** A sequence without repetitions has as many distinct elements as it has positions. */
  lemma {:induction false} DistinctCardinality<T>(xs: seq<T>)
    requires Distinct(xs)
    ensures |set x | x in xs| == |xs|
    decreases |xs|
  {
    if |xs| > 0 {
      var rest := xs[1..];
      assert Distinct(rest) by {
        forall i, j | 0 <= i < j < |rest| ensures rest[i] != rest[j] {
          assert rest[i] == xs[i + 1] && rest[j] == xs[j + 1];
        }
      }
      DistinctCardinality(rest);
      assert xs[0] !in rest by {
        forall j | 0 <= j < |rest| ensures rest[j] != xs[0] {
          assert rest[j] == xs[j + 1];
        }
      }
      assert (set x | x in xs) == (set x | x in rest) + {xs[0]} by {
        assert xs == [xs[0]] + rest;
      }
    }
  }

  /** Removing one position leaves a subsequence. */
  lemma {:induction false} DropIsSubseq<T>(xs: seq<T>, k: nat)
    requires k < |xs|
    ensures IsSubseq(xs[..k] + xs[k + 1..], xs)
    decreases |xs|
  {
    var d := xs[..k] + xs[k + 1..];
    if k == 0 {
      assert d == xs[1..];
      SkipFirstIsSubseq(xs[1..], xs);
    } else {
      DropIsSubseq(xs[1..], k - 1);
      assert d[0] == xs[0];
      assert d[1..] == xs[1..][..k - 1] + xs[1..][k..];
    }
  }

  /** Every sequence is a subsequence of itself. */
  lemma {:induction false} SelfIsSubseq<T>(xs: seq<T>)
    ensures IsSubseq(xs, xs)
    decreases |xs|
  {
    if |xs| > 0 {
      SelfIsSubseq(xs[1..]);
    }
  }

  /** Dropping the first element leaves a subsequence. */
  lemma SkipFirstIsSubseq<T>(ys: seq<T>, xs: seq<T>)
    requires |xs| > 0 && ys == xs[1..]
    ensures IsSubseq(ys, xs)
  {
    SelfIsSubseq(ys);
    if |ys| > 0 && ys[0] == xs[0] {
      TailIsSubseq(ys, xs[1..]);
    }
  }

  /** A subsequence stays one after dropping its first element. */
  lemma {:induction false} TailIsSubseq<T>(xs: seq<T>, ys: seq<T>)
    requires |xs| > 0 && IsSubseq(xs, ys)
    ensures IsSubseq(xs[1..], ys)
    decreases |ys|
  {
    if |xs[1..]| > 0 {
      if xs[0] == ys[0] {
        assert IsSubseq(xs[1..], ys[1..]);
        if xs[1..][0] == ys[0] {
          TailIsSubseq(xs[1..], ys[1..]);
        }
      } else {
        TailIsSubseq(xs, ys[1..]);
        if xs[1..][0] == ys[0] {
          TailIsSubseq(xs[1..], ys[1..]);
        }
      }
    }
  }

  /** A subsequence of a subsequence is a subsequence. */
  lemma {:induction false} SubseqTransitive<T>(xs: seq<T>, ys: seq<T>, zs: seq<T>)
    requires IsSubseq(xs, ys) && IsSubseq(ys, zs)
    ensures IsSubseq(xs, zs)
    decreases |zs|
  {
    if |xs| > 0 && |zs| > 0 {
      if ys[0] == zs[0] {
        if xs[0] == ys[0] {
          SubseqTransitive(xs[1..], ys[1..], zs[1..]);
        } else {
          SubseqTransitive(xs, ys[1..], zs[1..]);
        }
      } else {
        SubseqTransitive(xs, ys, zs[1..]);
        if xs[0] == zs[0] {
          TailIsSubseq(xs, zs[1..]);
        }
      }
    }
  }

}

=== FILE: store.dfy ===
/** The item table as an ordered sequence of records, with the create, read, update and
    delete operations of the request handlers (app.py `add_item`, `manage_items`,
    `edit_item`, `update_item`, `delete_item`). A rejected request commits nothing. */
module Store {
  import opened Options
  import opened Seqs
  import opened Text
  import opened Money
  import opened Items
  import opened Validation
  import opened Errors

  /** The table's rows in id order, which is also the order they were inserted in. */
  datatype Table = Table(items: seq<Item>)

  /** The largest id in use, 0 for an empty table. */
  function MaxId(items: seq<Item>): (m: nat)
    ensures forall i :: 0 <= i < |items| ==> items[i].id <= m
  {
    if |items| == 0 then 0
    else
      var m := MaxId(items[1..]);
      if items[0].id > m then items[0].id else m
  }

  /** The id SQLite gives a new row of an integer primary key: one more than the largest in use. */
  function NextId(s: Table): (id: int)
    ensures id >= 1
    ensures forall i :: 0 <= i < |s.items| ==> s.items[i].id < id
  {
    MaxId(s.items) + 1
  }

  /** The table's invariant: ids positive and strictly increasing (so no two rows share one),
      every quantity at least zero and every price at least one cent. */
  predicate Valid(s: Table) {
    && (forall i, j :: 0 <= i < j < |s.items| ==> s.items[i].id < s.items[j].id)
    && (forall i :: 0 <= i < |s.items| ==> s.items[i].id >= 1 && s.items[i].quantity >= 0 && s.items[i].price > 0)
  }

  /** Position of the first row with the given id. */
  function Find(items: seq<Item>, id: int): (k: Option<nat>)
    ensures k.Some? ==> k.value < |items| && items[k.value].id == id
    ensures k.Some? ==> forall i :: 0 <= i < k.value ==> items[i].id != id
    ensures k.None? <==> forall i :: 0 <= i < |items| ==> items[i].id != id
  {
    if |items| == 0 then None
    else if items[0].id == id then Some(0)
    else match Find(items[1..], id)
      case None => None
      case Some(k) => Some(k + 1)
  }

  /** `Item.query.get_or_404(id)`. */
  function Get(s: Table, id: int): (r: Result<Item, Error>)
    ensures r.Ok? <==> exists i :: 0 <= i < |s.items| && s.items[i].id == id
    ensures r.Ok? ==> r.value in s.items && r.value.id == id
    ensures r.Err? ==> r.error == NotFound
  {
    match Find(s.items, id)
    case None => Err(NotFound)
    case Some(k) => Ok(s.items[k])
  }

  /** Inserts a validated record under a fresh id; returns the new table and the new record. */
  function Create(s: Table, n: NewItem): (r: (Table, Item))
    ensures r.0.items == s.items + [r.1]
    ensures r.1.id >= 1 && forall i :: 0 <= i < |s.items| ==> s.items[i].id != r.1.id
    ensures r.1.name == n.name && r.1.quantity == n.quantity && r.1.price == n.price && r.1.category == n.category
  {
    var it := Item(NextId(s), n.name, n.quantity, n.price, n.category);
    (Table(s.items + [it]), it)
  }

  /** `add_item`: validate the JSON body, insert, answer with the new record's dictionary. */
  function AddItem(s: Table, body: Option<map<string, JsonValue>>): (r: Result<(Table, ItemDict), Error>)
    ensures r.Ok? <==> ValidateJson(body).Ok?
    ensures r.Err? ==> r == Err(ValidateJson(body).error)
    ensures r.Ok? ==> var (t, d) := r.value;
      && |t.items| == |s.items| + 1 && t.items[..|s.items|] == s.items
      && FromDict(d) == Some(t.items[|s.items|])
      && (Valid(s) ==> Valid(t))
    ensures r.Ok? ==> r.value.0 == Create(s, ValidateJson(body).value).0
  {
    match ValidateJson(body)
    case Err(e) => Err(e)
    case Ok(n) =>
      var (t, it) := Create(s, n);
      assert t.items[..|s.items|] == s.items;
      CreatePreservesValid(s, n);
      ToDictRoundTrip(it);
      Ok((t, ToDict(it)))
  }

  /** The form post of `manage_items`: validate, insert. */
  function ManageItemsPost(s: Table, form: map<string, string>): (r: Result<Table, Error>)
    ensures r.Ok? <==> ValidateForm(form).Ok?
    ensures r.Err? ==> r == Err(ValidateForm(form).error)
    ensures r.Ok? ==> |r.value.items| == |s.items| + 1 && r.value.items[..|s.items|] == s.items
    ensures r.Ok? && Valid(s) ==> Valid(r.value)
    ensures r.Ok? ==> r.value == Create(s, ValidateForm(form).value).0
  {
    match ValidateForm(form)
    case Err(e) => Err(e)
    case Ok(n) =>
      var t := Create(s, n).0;
      assert t.items[..|s.items|] == s.items;
      CreatePreservesValid(s, n);
      Ok(t)
  }

  /** Inserting a record that passed the gate keeps the table's invariant. */
  lemma CreatePreservesValid(s: Table, n: NewItem)
    requires n.quantity >= 0 && n.price > 0
    ensures Valid(s) ==> Valid(Create(s, n).0)
  {
  }

  /** A created record can be read back by its id, equal in every field to the input. */
  lemma {:induction false} CreateThenGet(s: Table, n: NewItem)
    ensures var (t, it) := Create(s, n);
      Get(t, it.id) == Ok(Item(it.id, n.name, n.quantity, n.price, n.category))
  {
    var (t, it) := Create(s, n);
    var k := Find(t.items, it.id);
    assert t.items[|s.items|] == it;
    assert k.Some? && k.value == |s.items|;
  }

  /** `update_item` with the price check given by `gate`. Fields are read in the handler's order:
      the quantity (an absent one is a `TypeError`, text that does not parse a `ValueError`),
      then the price, then the quantity and price checks; the name is not checked before the
      commit, which rejects an absent name as a NOT NULL violation. */
  function UpdateUnder(gate: PriceGate, s: Table, id: int, form: map<string, string>): (r: Result<Table, Error>)
    ensures Find(s.items, id).None? ==> r == Err(NotFound)
    ensures Find(s.items, id).Some? ==>
      var qt, pt := FormGet(form, "quantity"), FormGet(form, "price");
      && (qt.None? ==> r == Err(GenericError))
      && (qt.Some? && ParseInt(qt.value).None? ==> r == Err(InvalidNumber))
      && (qt.Some? && ParseInt(qt.value).Some? && pt.None? ==> r == Err(GenericError))
      && (qt.Some? && ParseInt(qt.value).Some? && pt.Some? && ParseDecimal(pt.value).None? ==> r == Err(InvalidNumber))
      && (qt.Some? && ParseInt(qt.value).Some? && pt.Some? && ParseDecimal(pt.value).Some? ==>
            var q, p := ParseInt(qt.value).value, ParseDecimal(pt.value).value;
            && (q < 0 ==> r == Err(NegativeQuantity))
            && (q >= 0 && !PriceAccepted(gate, p) ==> r == Err(NonPositivePrice))
            && (q >= 0 && PriceAccepted(gate, p) && "name" !in form ==> r == Err(StorageError))
            && (q >= 0 && PriceAccepted(gate, p) && "name" in form ==> r.Ok?))
  {
    match Find(s.items, id)
    case None => Err(NotFound)
    case Some(k) =>
      var name := FormGet(form, "name");
      var qt := FormGet(form, "quantity");
      var pt := FormGet(form, "price");
      if qt.None? then Err(GenericError)
      else if ParseInt(qt.value).None? then Err(InvalidNumber)
      else if pt.None? then Err(GenericError)
      else if ParseDecimal(pt.value).None? then Err(InvalidNumber)
      else
        var q := ParseInt(qt.value).value;
        var p := ParseDecimal(pt.value).value;
        if q < 0 then Err(NegativeQuantity)
        else if !PriceAccepted(gate, p) then Err(NonPositivePrice)
        else if name.None? then Err(StorageError)
        else Ok(Table(s.items[k := Item(id, name.value, q, RoundToCents(p), FormGet(form, "category"))]))
  }

  /** When an update form is committed: quantity and price present and parseable, a quantity
      of at least zero, a price of at least one cent, and a name present (possibly empty). */
  predicate UpdateAcceptable(form: map<string, string>) {
    && "quantity" in form && ParseInt(form["quantity"]).Some? && ParseInt(form["quantity"]).value >= 0
    && "price" in form && ParseDecimal(form["price"]).Some? && RoundToCents(ParseDecimal(form["price"]).value) > 0
    && "name" in form
  }

  /** `update_item`, with the price compared after rounding to cents: overwrites every column
      of the row with the given id except the id, and nothing else. */
  function Update(s: Table, id: int, form: map<string, string>): (r: Result<Table, Error>)
    ensures Find(s.items, id).None? ==> r == Err(NotFound)
    ensures r.Ok? <==> Find(s.items, id).Some? && UpdateAcceptable(form)
    ensures r.Ok? ==> var k := Find(s.items, id).value; var t := r.value.items;
      && |t| == |s.items|
      && (forall j :: 0 <= j < |t| && j != k ==> t[j] == s.items[j])
      && t[k].id == id
      && t[k].name == form["name"]
      && ParseInt(form["quantity"]) == Some(t[k].quantity)
      && t[k].price == RoundToCents(ParseDecimal(form["price"]).value)
      && t[k].category == FormGet(form, "category")
      && t[k].quantity >= 0 && t[k].price > 0
    ensures Find(s.items, id).Some? && "quantity" !in form ==> r == Err(GenericError)
    ensures Find(s.items, id).Some? && "quantity" in form && ParseInt(form["quantity"]).Some? && "price" !in form
            ==> r == Err(GenericError)
    ensures Find(s.items, id).Some? && !("name" in form) && UpdateAcceptable(form["name" := ""])
            ==> r == Err(StorageError)
  {
    UpdateUnder(StoredCents, s, id, form)
  }

  /** An update keeps the table's invariant. */
  lemma UpdatePreservesValid(s: Table, id: int, form: map<string, string>)
    ensures Valid(s) && Update(s, id, form).Ok? ==> Valid(Update(s, id, form).value)
  {
  }

  /** Applying the same update twice leaves the table as applying it once. */
  lemma UpdateIdempotent(s: Table, id: int, form: map<string, string>)
    requires Find(s.items, id).Some? && UpdateAcceptable(form)
    ensures Update(Update(s, id, form).value, id, form) == Update(s, id, form)
  {
    var t := Update(s, id, form).value;
    var k := Find(s.items, id).value;
    assert Find(t.items, id) == Some(k);
    assert t.items[k := t.items[k]] == t.items;
  }

  /** `delete_item` with the 404 of its lookup answered as such: removes the row with the
      given id, and reports `NotFound` for an absent one. */
  function Delete(s: Table, id: int): (r: Result<Table, Error>)
    ensures r.Err? <==> forall i :: 0 <= i < |s.items| ==> s.items[i].id != id
    ensures r.Err? ==> r.error == NotFound
    ensures r.Ok? ==> |r.value.items| == |s.items| - 1 && IsSubseq(r.value.items, s.items)
  {
    match Find(s.items, id)
    case None => Err(NotFound)
    case Some(k) =>
      DropIsSubseq(s.items, k);
      Ok(Table(s.items[..k] + s.items[k + 1..]))
  }

  /** `delete_item` as written: its `get_or_404` sits inside the handler's `try`, so the 404
      raised for an absent id is caught by `except Exception` and answered with the generic
      error. A present id is deleted as by `Delete`. */
  function DeleteAsWritten(s: Table, id: int): (r: Result<Table, Error>)
    ensures r.Err? <==> forall i :: 0 <= i < |s.items| ==> s.items[i].id != id
    ensures r.Err? ==> r.error == GenericError
    ensures r.Ok? ==> r == Delete(s, id)
  {
    match Delete(s, id)
    case Err(_) => Err(GenericError)
    case Ok(t) => Ok(t)
  }

  /** For every absent id the handler as written answers with the generic error, where the
      lookup's own promise (and the corrected `Delete`) is `NotFound`. */
  lemma AbsentDeleteIsGenericError(s: Table, id: int)
    requires forall i :: 0 <= i < |s.items| ==> s.items[i].id != id
    ensures DeleteAsWritten(s, id) == Err(GenericError)
    ensures Delete(s, id) == Err(NotFound)
  {
  }

  /** The rows a delete of `id` keeps. */
  function NotId(id: int): Item -> bool {
    (it: Item) => it.id != id
  }

  /** Deleting an existing id removes exactly the rows with that id, which in a valid table is one. */
  lemma DeleteRemovesExactly(s: Table, id: int)
    requires Valid(s)
    requires Delete(s, id).Ok?
    ensures Delete(s, id).value.items == Filter(NotId(id), s.items)
  {
    var k := Find(s.items, id).value;
    DeleteIsFilter(s.items, id, k);
  }

  /** A delete keeps the table's invariant. */
  lemma DeletePreservesValid(s: Table, id: int)
    ensures Valid(s) && Delete(s, id).Ok? ==> Valid(Delete(s, id).value)
  {
    if Valid(s) && Delete(s, id).Ok? {
      var k := Find(s.items, id).value;
      var t := Delete(s, id).value.items;
      assert t == s.items[..k] + s.items[k + 1..];
      forall i, j | 0 <= i < j < |t| ensures t[i].id < t[j].id {
        var i' := if i < k then i else i + 1;
        var j' := if j < k then j else j + 1;
        assert t[i] == s.items[i'] && t[j] == s.items[j'];
      }
    }
  }

  lemma DeleteIsFilter(xs: seq<Item>, id: int, k: nat)
    requires k < |xs| && xs[k].id == id
    requires forall j :: 0 <= j < |xs| && j != k ==> xs[j].id != id
    ensures xs[..k] + xs[k + 1..] == Filter(NotId(id), xs)
  {
    FilterDrop(NotId(id), xs, k);
    KeepsBefore(xs, id, k);
    KeepsAfter(xs, id, k);
  }

  /** In a table where only row `k` has the id, a delete keeps every row before it. */
  lemma KeepsBefore(xs: seq<Item>, id: int, k: nat)
    requires k < |xs|
    requires forall j :: 0 <= j < |xs| && j != k ==> xs[j].id != id
    ensures Filter(NotId(id), xs[..k]) == xs[..k]
  {
    var before := xs[..k];
    forall j | 0 <= j < |before| ensures before[j].id != id {
      assert before[j] == xs[j];
    }
    FilterKeepsAll(before, id);
  }

  /** … and every row after it. */
  lemma KeepsAfter(xs: seq<Item>, id: int, k: nat)
    requires k < |xs|
    requires forall j :: 0 <= j < |xs| && j != k ==> xs[j].id != id
    ensures Filter(NotId(id), xs[k + 1..]) == xs[k + 1..]
  {
    var after := xs[k + 1..];
    forall j | 0 <= j < |after| ensures after[j].id != id {
      assert after[j] == xs[k + 1 + j];
    }
    FilterKeepsAll(after, id);
  }

  lemma {:induction false} FilterKeepsAll(xs: seq<Item>, id: int)
    requires forall j :: 0 <= j < |xs| ==> xs[j].id != id
    ensures Filter(NotId(id), xs) == xs
    decreases |xs|
  {
    if |xs| > 0 {
      FilterKeepsAll(xs[1..], id);
      assert xs == [xs[0]] + xs[1..];
    }
  }

  /** One mutating request against the table. */
  datatype Request =
    | CreateJson(body: Option<map<string, JsonValue>>)
    | CreateForm(form: map<string, string>)
    | Edit(id: int, form: map<string, string>)
    | Remove(id: int)

  /** The table after one request; a request that fails commits nothing. */
  function Apply(s: Table, req: Request): (t: Table)
    ensures Valid(s) ==> Valid(t)
    ensures req.CreateJson? && ValidateJson(req.body).Err? ==> t == s
    ensures req.CreateForm? && ValidateForm(req.form).Err? ==> t == s
    ensures req.Edit? && Update(s, req.id, req.form).Err? ==> t == s
    ensures req.Remove? && Delete(s, req.id).Err? ==> t == s
    ensures req.Remove? && Delete(s, req.id).Ok? ==> |t.items| == |s.items| - 1
  {
    match req
    case CreateJson(body) =>
      (match AddItem(s, body) case Ok(res) => res.0 case Err(_) => s)
    case CreateForm(form) =>
      (match ManageItemsPost(s, form) case Ok(t) => t case Err(_) => s)
    case Edit(id, form) =>
      UpdatePreservesValid(s, id, form);
      (match Update(s, id, form) case Ok(t) => t case Err(_) => s)
    case Remove(id) =>
      if Delete(s, id).Ok? then
        DeletePreservesValid(s, id);
        Delete(s, id).value
      else s
  }

  /** The table after a series of requests. Starting from a valid table (the empty one is),
      no stored item ever has a negative quantity, a price below one cent, or a shared id. */
  function Run(s: Table, reqs: seq<Request>): (t: Table)
    ensures Valid(s) ==> Valid(t)
    decreases |reqs|
  {
    if |reqs| == 0 then s else Run(Apply(s, reqs[0]), reqs[1..])
  }
}

=== FILE: text.dfy ===
/** Decimal digit strings, integer text in the form Python's `int` reads and `str` writes,
    and the ASCII case-insensitive substring test behind the item search. */
module Text {
  import opened Options

  predicate IsDigit(c: char) {
    '0' <= c <= '9'
  }

  predicate AllDigits(s: string) {
    forall i :: 0 <= i < |s| ==> IsDigit(s[i])
  }

  function DigitValue(c: char): nat
    requires IsDigit(c)
  {
    c as int - '0' as int
  }

  function DigitChar(d: nat): (c: char)
    requires d < 10
    ensures IsDigit(c) && DigitValue(c) == d
  {
    ('0' as int + d) as char
  }

  /** The number a string of decimal digits denotes, most significant digit first.
      Leading zeros are allowed, as `int("007")` allows them. */
  function DigitsValue(s: string): nat
    requires AllDigits(s)
  {
    if |s| == 0 then 0 else 10 * DigitsValue(s[..|s| - 1]) + DigitValue(s[|s| - 1])
  }

  /** Python truthiness of an optional string: present and non-empty. */
  predicate Truthy(s: Option<string>) {
    s.Some? && s.value != ""
  }

  /** Digits without a leading zero (a lone "0" aside): the form `str` writes a natural number in. */
  predicate Canonical(d: string) {
    |d| > 0 && AllDigits(d) && (d[0] != '0' || |d| == 1)
  }

  /** The shortest decimal text of `n`: what Python's `str` writes for a non-negative int. */
  function NatText(n: nat): (s: string)
    ensures |s| > 0 && AllDigits(s)
    ensures Canonical(s)
    ensures DigitsValue(s) == n
    decreases n
  {
    if n < 10 then [DigitChar(n)]
    else
      var prefix := NatText(n / 10);
      var s := prefix + [DigitChar(n % 10)];
      assert s[..|s| - 1] == prefix;
      s
  }

  /** What Python's `str` writes for an int. */
  function IntText(i: int): (s: string)
    ensures ParseInt(s) == Some(i)
    ensures i < 0 ==> s[0] == '-' && Canonical(s[1..])
    ensures i >= 0 ==> Canonical(s)
  {
    if i < 0 then
      var s := "-" + NatText(-i);
      assert s[1..] == NatText(-i);
      s
    else NatText(i)
  }

  /** Python's `int(s)` on a string: an optional sign followed by at least one decimal digit.
      `None` stands for the `ValueError` it raises otherwise. */
  function ParseInt(s: string): (r: Option<int>)
    ensures r.Some? <==> (|s| > 0 && AllDigits(s))
                         || (|s| > 1 && (s[0] == '-' || s[0] == '+') && AllDigits(s[1..]))
    ensures r.Some? && r.value < 0 ==> s[0] == '-'
    ensures |s| > 0 && AllDigits(s) ==> r == Some(DigitsValue(s))
    ensures |s| > 1 && s[0] == '+' && AllDigits(s[1..]) ==> r == Some(DigitsValue(s[1..]))
    ensures |s| > 1 && s[0] == '-' && AllDigits(s[1..]) ==> r == Some(-(DigitsValue(s[1..]) as int))
  {
    if |s| > 0 && (s[0] == '-' || s[0] == '+') then
      var body := s[1..];
      if |body| > 0 && AllDigits(body) then
        Some(if s[0] == '-' then -(DigitsValue(body) as int) else DigitsValue(body))
      else None
    else if |s| > 0 && AllDigits(s) then Some(DigitsValue(s))
    else None
  }

  /** ASCII lower-casing, the folding SQLite's `lower` applies. */
  function Lower(c: char): char {
    if 'A' <= c <= 'Z' then (c as int + 32) as char else c
  }

  function LowerStr(s: string): (r: string)
    ensures |r| == |s|
    ensures forall i :: 0 <= i < |s| ==> r[i] == Lower(s[i])
  {
    seq(|s|, i requires 0 <= i < |s| => Lower(s[i]))
  }

  /** `needle` occurs in `hay` at position `i`, ignoring ASCII case. */
  predicate MatchesAt(hay: string, needle: string, i: int) {
    0 <= i && i + |needle| <= |hay| && LowerStr(hay[i..i + |needle|]) == LowerStr(needle)
  }

  /** Reference meaning of the search: some position of `hay` holds `needle`, ignoring ASCII case. */
  ghost predicate OccursCI(hay: string, needle: string) {
    exists i :: MatchesAt(hay, needle, i)
  }

  predicate IsPrefixCI(needle: string, hay: string) {
    |needle| <= |hay| && LowerStr(hay[..|needle|]) == LowerStr(needle)
  }

  /** The executable search: `needle` is a prefix of `hay` or of one of its suffixes. */
  predicate ContainsCI(hay: string, needle: string)
    decreases |hay|
  {
    IsPrefixCI(needle, hay) || (|hay| > 0 && ContainsCI(hay[1..], needle))
  }

  /** The executable search finds exactly the occurrences the reference meaning describes. */
  lemma {:induction false} ContainsCIMeansOccurs(hay: string, needle: string)
    ensures ContainsCI(hay, needle) <==> OccursCI(hay, needle)
    decreases |hay|
  {
    var n := |needle|;
    if IsPrefixCI(needle, hay) {
      assert hay[0..n] == hay[..n];
      assert MatchesAt(hay, needle, 0);
    } else if |hay| > 0 {
      var tail := hay[1..];
      ContainsCIMeansOccurs(tail, needle);
      if OccursCI(tail, needle) {
        var i :| MatchesAt(tail, needle, i);
        assert tail[i..i + n] == hay[i + 1..i + 1 + n];
        assert MatchesAt(hay, needle, i + 1);
      }
      if OccursCI(hay, needle) {
        var i :| MatchesAt(hay, needle, i);
        if i > 0 {
          assert tail[i - 1..i - 1 + n] == hay[i..i + n];
          assert MatchesAt(tail, needle, i - 1);
        }
      }
    }
  }
}

=== FILE: validation.dfy ===
/** The input gate in front of item creation (app.py `add_item` for JSON bodies and
    `manage_items` for HTML forms): required fields, then number parsing, then
    the quantity and price checks, reporting the first check that fails. */
module Validation {
  import opened Options
  import opened Errors
  import opened Text
  import opened Money

  /** A JSON member value: `null` or text. */
  datatype JsonValue = JNull | JStr(s: string)

  /** The four fields as the handler reads them: `None` is Python's `None`. */
  datatype RawFields = RawFields(name: Option<string>, quantity: Option<string>, price: Option<string>, category: Option<string>)

  /** Validated values for a new record, before the store gives it an id. */
  datatype NewItem = NewItem(name: string, quantity: int, price: Cents, category: Option<string>)

  /** Which amount the price check compares with zero: the exact number the text denotes
      (what the handlers do), or the cents the price column keeps (what they intend). */
  datatype PriceGate = ExactValue | StoredCents

  /** `data.get(key)` on a JSON object: a missing key and `null` both read as `None`. */
  function JsonGet(body: map<string, JsonValue>, key: string): (r: Option<string>)
    ensures r.Some? <==> key in body && body[key].JStr?
  {
    if key in body && body[key].JStr? then Some(body[key].s) else None
  }

  /** `request.form.get(key)`: a missing key reads as `None`, an empty input as "". */
  function FormGet(form: map<string, string>, key: string): (r: Option<string>)
    ensures r.Some? <==> key in form
  {
    if key in form then Some(form[key]) else None
  }

  function JsonFields(body: map<string, JsonValue>): RawFields {
    RawFields(JsonGet(body, "name"), JsonGet(body, "quantity"), JsonGet(body, "price"), JsonGet(body, "category"))
  }

  function FormFields(form: map<string, string>): RawFields {
    RawFields(FormGet(form, "name"), FormGet(form, "quantity"), FormGet(form, "price"), FormGet(form, "category"))
  }

  /** The JSON handler's required-field test: the name must be truthy, quantity and price only not `None`. */
  predicate JsonRequiredPresent(f: RawFields) {
    Truthy(f.name) && f.quantity.Some? && f.price.Some?
  }

  /** The form handler's required-field test: all three must be truthy. */
  predicate FormRequiredPresent(f: RawFields) {
    Truthy(f.name) && Truthy(f.quantity) && Truthy(f.price)
  }

  predicate PriceAccepted(gate: PriceGate, p: Decimal) {
    match gate
    case ExactValue => p.units > 0
    case StoredCents => RoundToCents(p) > 0
  }

  /** The checks shared by both create handlers once the required fields are present:
      parse quantity and price, then reject a negative quantity, then a non-positive price. */
  function CheckValues(gate: PriceGate, name: string, quantity: string, price: string, category: Option<string>): (r: Result<NewItem, Error>)
    ensures r.Ok? <==> ParseInt(quantity).Some? && ParseDecimal(price).Some?
                       && ParseInt(quantity).value >= 0 && PriceAccepted(gate, ParseDecimal(price).value)
    ensures r.Ok? ==> r.value == NewItem(name, ParseInt(quantity).value, RoundToCents(ParseDecimal(price).value), category)
    ensures r.Err? ==> r.error in {InvalidNumber, NegativeQuantity, NonPositivePrice}
    ensures r == Err(InvalidNumber) <==> ParseInt(quantity).None? || ParseDecimal(price).None?
    ensures r == Err(NegativeQuantity) <==>
              ParseInt(quantity).Some? && ParseDecimal(price).Some? && ParseInt(quantity).value < 0
    ensures r == Err(NonPositivePrice) <==>
              ParseInt(quantity).Some? && ParseDecimal(price).Some? && ParseInt(quantity).value >= 0
              && !PriceAccepted(gate, ParseDecimal(price).value)
  {
    var q := ParseInt(quantity);
    var p := ParseDecimal(price);
    if q.None? || p.None? then Err(InvalidNumber)
    else if q.value < 0 then Err(NegativeQuantity)
    else if !PriceAccepted(gate, p.value) then Err(NonPositivePrice)
    else Ok(NewItem(name, q.value, RoundToCents(p.value), category))
  }

  /** Gate of `add_item`. `None` is a request without a JSON body. */
  function ValidateJsonUnder(gate: PriceGate, body: Option<map<string, JsonValue>>): (r: Result<NewItem, Error>)
    ensures r == Err(NoData) <==> body.None? || |body.value| == 0
    ensures r == Err(MissingField) <==> body.Some? && |body.value| > 0 && !JsonRequiredPresent(JsonFields(body.value))
    ensures body.Some? && |body.value| > 0 && JsonRequiredPresent(JsonFields(body.value)) ==>
      var f := JsonFields(body.value);
      r == CheckValues(gate, f.name.value, f.quantity.value, f.price.value, f.category)
  {
    if body.None? || |body.value| == 0 then Err(NoData)
    else
      var f := JsonFields(body.value);
      if !JsonRequiredPresent(f) then Err(MissingField)
      else CheckValues(gate, f.name.value, f.quantity.value, f.price.value, f.category)
  }

  /** Gate of the `manage_items` form post. */
  function ValidateFormUnder(gate: PriceGate, form: map<string, string>): (r: Result<NewItem, Error>)
    ensures r == Err(MissingField) <==> !FormRequiredPresent(FormFields(form))
    ensures FormRequiredPresent(FormFields(form)) ==>
      var f := FormFields(form);
      r == CheckValues(gate, f.name.value, f.quantity.value, f.price.value, f.category)
  {
    var f := FormFields(form);
    if !FormRequiredPresent(f) then Err(MissingField)
    else CheckValues(gate, f.name.value, f.quantity.value, f.price.value, f.category)
  }

  /** A record the gate lets through satisfies the table's invariant. */
  predicate WellFormed(n: NewItem) {
    n.name != "" && n.quantity >= 0 && n.price > 0
  }

  /** The create gate of `add_item`, with the price compared after rounding to cents. */
  function ValidateJson(body: Option<map<string, JsonValue>>): (r: Result<NewItem, Error>)
    ensures r == Err(NoData) <==> body.None? || |body.value| == 0
    ensures r == Err(MissingField) <==> body.Some? && |body.value| > 0 && !JsonRequiredPresent(JsonFields(body.value))
    ensures r.Ok? ==> WellFormed(r.value)
    ensures r.Ok? ==> var f := JsonFields(body.value);
                      r.value.name == f.name.value && r.value.category == f.category
                      && ParseInt(f.quantity.value) == Some(r.value.quantity)
                      && f.price.Some? && ParseDecimal(f.price.value).Some?
                      && r.value.price == RoundToCents(ParseDecimal(f.price.value).value)
    ensures r.Ok? <==> body.Some? && |body.value| > 0 && Acceptable(JsonFields(body.value))
  {
    ValidateJsonUnder(StoredCents, body)
  }

  /** The create gate of the `manage_items` form, with the price compared after rounding to cents. */
  function ValidateForm(form: map<string, string>): (r: Result<NewItem, Error>)
    ensures r == Err(MissingField) <==> !FormRequiredPresent(FormFields(form))
    ensures r.Ok? ==> WellFormed(r.value)
    ensures r.Ok? ==> var f := FormFields(form);
                      r.value.name == f.name.value && r.value.category == f.category
                      && ParseInt(f.quantity.value) == Some(r.value.quantity)
                      && f.price.Some? && ParseDecimal(f.price.value).Some?
                      && r.value.price == RoundToCents(ParseDecimal(f.price.value).value)
    ensures r.Ok? <==> FormRequiredPresent(FormFields(form)) && Acceptable(FormFields(form))
  {
    ValidateFormUnder(StoredCents, form)
  }

  /** Independent statement of when a create succeeds: a non-empty name, a quantity and a
      price that parse, a quantity of at least zero, a price of at least one cent. */
  predicate Acceptable(f: RawFields) {
    && Truthy(f.name)
    && f.quantity.Some? && ParseInt(f.quantity.value).Some? && ParseInt(f.quantity.value).value >= 0
    && f.price.Some? && ParseDecimal(f.price.value).Some? && RoundToCents(ParseDecimal(f.price.value).value) > 0
  }

  /** The first failing check decides the error: the JSON gate reports a parse failure only when
      the required fields are present, a negative quantity only when both numbers parse, and a
      price error only when the quantity is acceptable. */
  lemma JsonErrorOrder(body: map<string, JsonValue>)
    requires |body| > 0
    ensures var f := JsonFields(body); var r := ValidateJson(Some(body));
      && (r == Err(InvalidNumber) <==> JsonRequiredPresent(f) && (ParseInt(f.quantity.value).None? || ParseDecimal(f.price.value).None?))
      && (r == Err(NegativeQuantity) <==>
            (JsonRequiredPresent(f) && ParseInt(f.quantity.value).Some? && ParseDecimal(f.price.value).Some?
             && ParseInt(f.quantity.value).value < 0))
      && (r == Err(NonPositivePrice) <==>
            (JsonRequiredPresent(f) && ParseInt(f.quantity.value).Some? && ParseDecimal(f.price.value).Some?
             && ParseInt(f.quantity.value).value >= 0 && RoundToCents(ParseDecimal(f.price.value).value) <= 0))
  {
  }

  /** The form gate reports the first failing check in the same order as the JSON gate:
      required fields, then parsing, then a negative quantity, then the price. */
  lemma FormErrorOrder(form: map<string, string>)
    ensures var f := FormFields(form); var r := ValidateForm(form);
      && (r == Err(InvalidNumber) <==> FormRequiredPresent(f) && (ParseInt(f.quantity.value).None? || ParseDecimal(f.price.value).None?))
      && (r == Err(NegativeQuantity) <==>
            (FormRequiredPresent(f) && ParseInt(f.quantity.value).Some? && ParseDecimal(f.price.value).Some?
             && ParseInt(f.quantity.value).value < 0))
      && (r == Err(NonPositivePrice) <==>
            (FormRequiredPresent(f) && ParseInt(f.quantity.value).Some? && ParseDecimal(f.price.value).Some?
             && ParseInt(f.quantity.value).value >= 0 && RoundToCents(ParseDecimal(f.price.value).value) <= 0))
  {
  }

  /** The two create handlers differ only in what counts as missing: given the same fields,
      the form gate accepts exactly what the JSON gate accepts, and an empty quantity or price
      is a missing field on the form but an unparseable number in JSON. */
  lemma FormAndJsonAgree(body: map<string, JsonValue>, form: map<string, string>)
    requires |body| > 0
    requires JsonFields(body) == FormFields(form)
    ensures ValidateForm(form).Ok? <==> ValidateJson(Some(body)).Ok?
    ensures ValidateForm(form).Ok? ==> ValidateForm(form) == ValidateJson(Some(body))
    ensures JsonRequiredPresent(JsonFields(body)) && (JsonFields(body).quantity == Some("") || JsonFields(body).price == Some(""))
            ==> ValidateJson(Some(body)) == Err(InvalidNumber) && ValidateForm(form) == Err(MissingField)
  {
  }

  /** As written, the price check compares the exact number with zero, so a price below half a
      cent passes the gate and is stored as zero cents; the corrected gate rejects it. */
  lemma ExactGateStoresZeroPrice()
    ensures var body := map["name" := JStr("Nut"), "quantity" := JStr("1"), "price" := JStr("0.001")];
      && ValidateJsonUnder(ExactValue, Some(body)) == Ok(NewItem("Nut", 1, 0, None))
      && ValidateJson(Some(body)) == Err(NonPositivePrice)
  {
    var body := map["name" := JStr("Nut"), "quantity" := JStr("1"), "price" := JStr("0.001")];
    assert "name" in body && |body| > 0;
    assert JsonFields(body) == RawFields(Some("Nut"), Some("1"), Some("0.001"), None);
    assert ValidateJsonUnder(ExactValue, Some(body)) == CheckValues(ExactValue, "Nut", "1", "0.001", None);
    assert ValidateJsonUnder(StoredCents, Some(body)) == CheckValues(StoredCents, "Nut", "1", "0.001", None);
    SubCentValues();
  }

  /** The value checks on quantity "1" and price "0.001": the exact gate lets them through
      with a price of zero cents, the corrected gate reports the price. */
  lemma SubCentValues()
    ensures CheckValues(ExactValue, "Nut", "1", "0.001", None) == Ok(NewItem("Nut", 1, 0, None))
    ensures CheckValues(StoredCents, "Nut", "1", "0.001", None) == Err(NonPositivePrice)
  {
    assert AllDigits("1") && "1"[..0] == [];
    assert ParseInt("1") == Some(1);
    SubCentPrice();
  }

  /** "0.001" is a positive number that rounds to zero cents. */
  lemma SubCentPrice()
    ensures ParseDecimal("0.001") == Some(Decimal(1, 3))
    ensures RoundToCents(Decimal(1, 3)) == 0
  {
    SubCentParse();
    SubCentRounds();
  }

  lemma SubCentParse()
    ensures ParseDecimal("0.001") == Some(Decimal(1, 3))
  {
    SubCentUnsigned();
    assert "0.001"[0] == '0';
  }

  lemma SubCentUnsigned()
    ensures ParseUnsigned("0.001") == Some(Decimal(1, 3))
  {
    assert "0.001" == "0" + "." + "001";
    ParsePointed("0", "001");
    SubCentDigits();
    assert Pow10(3) == 1000;
  }

  lemma SubCentDigits()
    ensures AllDigits("001") && DigitsValue("0") == 0 && DigitsValue("001") == 1
  {
    assert "0"[..0] == [];
    assert "001"[..2] == "00" && "00"[..1] == "0";
  }

  lemma SubCentRounds()
    ensures RoundToCents(Decimal(1, 3)) == 0
  {
    assert Pow10(3) == 1000;
    var c := RoundToCents(Decimal(1, 3));
    assert 2 * Abs(100 - c * 1000) <= 1000;
  }
}
